=== FILE: README.md ===
# BuckyOS Python SDK: the kRPC envelope, session store and login, in Dafny

This project models the core of the BuckyOS Python client SDK (`src/buckyos/`).
The SDK talks to the zone's authentication service, `verify-hub`, over kRPC. kRPC is a
JSON-over-HTTP-POST call envelope `{method, params, sys}`.

- **Krpc** (`krpc_client.py`). A channel holds a sequence number and an optional
  session token. A call sends the current number, bumps it before any I/O, and then
  checks the reply in a fixed order:
  1. `sys` must be a list.
  2. If it has two or more entries, the first must be an integer equal to the number sent.
  3. If it has three or more entries, the second must be a string, and it replaces the held token.
  4. An `error` field fails the call.
  5. Otherwise the call returns `result`.

  Service URLs are `{protocol}{zone host}/kapi/{service}`.
- **Account** (`account.py`). Covers the two-stage password hash, and saving, cleaning and
  reading the session record and its cookie in local storage. It also covers `do_login`,
  which pins the channel's sequence number to the nonce it salted the hash with.
- **Config** (`config.py`). The configuration slot and the current-account slot.
- **Facade** (`main.py`). `init_bucky_os` sets the configuration at most once. `login`
  adopts a stored record if one exists, and otherwise cleans the store and runs `do_login`.
  `logout` is the third entry point.
- **Decimal** renders an integer as Python's `str(int)` does (within CPython's 4300-digit
  conversion limit), plus a parser for it; the nonce is appended to the hash input in that form.
- **JsonValues** is the parsed JSON a reply carries. **Base** holds the Option and
  Outcome types and the failure kinds.

Python's module-level mutable state is threaded explicitly through the model:

- a `Process` value holds the two slots;
- a `Store` (`map<string, string>`) stands for local storage;
- `Sdk` holds both.

Every operation is a pure function that returns the new state together with what Python
returned or raised. The server's reply is a parameter: a transport failure, a non-OK
status, an unparseable body, or the parsed JSON.

Behaviour worth noting:
- A stored record that fails to decode raises. It is not treated as absent.
- `logout` never clears the in-memory account.
- The digest is base64 of SHA-256.
- The storage key is `account_info` and the service name is `verify-hub`.
- Hashing is not injective in (username, password), because the stage-one input concatenates
  them without a separator (`Account.StageOneAmbiguous`).
- JSON `true`/`false` pass the `isinstance(x, int)` check on `sys[0]`, as 1 and 0.

## Model

| member | source | states |
|---|---|---|
| `Krpc.NewChannel` | src/buckyos/krpc_client.py:20-26 | the channel's number is the given one, or the clock reading when none is given; `session_token` and `init_token` both equal the given token |
| `Krpc.SetSeq` | src/buckyos/krpc_client.py:31-32 | only the sequence number changes, to exactly `n` |
| `Krpc.SetSeqPinsNextCall` | src/buckyos/krpc_client.py:31-36 | after `set_seq(n)` the next call sends `n` as `sys[0]` and leaves the channel at `n + 1` |
| `Krpc.RequestSys` | src/buckyos/krpc_client.py:41 | request `sys` is `[seq, token]` exactly when the token is truthy (present and non-empty), `[seq]` otherwise |
| `Krpc.Call` | src/buckyos/krpc_client.py:34-84 | posts to the channel's URL, sends the pre-call number and leaves the channel one higher whatever the outcome. It succeeds exactly when the reply is an object whose `sys`, if present, is a list with a matching integer first entry (two or more entries) and a string second entry (three or more), and which has no `error`. It then returns `result`, or null when absent. The token changes exactly when an acceptable `sys` has three or more entries, and becomes `sys[1]` |
| `Krpc.SeqMismatchKeepsToken` | src/buckyos/krpc_client.py:61-72 | a `sys` of two or more entries whose first is not the number sent fails the call and leaves the token unchanged |
| `Krpc.ShortSysNeverRotates` | src/buckyos/krpc_client.py:68-72 | a `sys` of at most two entries never changes the token |
| `Krpc.ErrorAfterRotation` | src/buckyos/krpc_client.py:68-75 | a reply with a valid three-entry `sys` and an `error` fails but has already installed the new token |
| `Krpc.RotatedTokenSentNext` | src/buckyos/krpc_client.py:38-72 | after a rotating reply, the next call sends `[seq + 1, token]`, or only `[seq + 1]` when the rotated token is empty |
| `Krpc.CallSequence` | src/buckyos/krpc_client.py:34-36 | consecutive calls on one channel send `seq, seq + 1, ...`, strictly increasing whatever the replies, and leave the channel at `seq + n` |
| `Krpc.GetZoneServiceUrl` | src/buckyos/krpc_client.py:87-90 | fails exactly when unconfigured; otherwise the URL is the protocol, then the zone host, then `/kapi/`, then the service name, piece by piece |
| `Krpc.ServiceUrlDeterminesService` | src/buckyos/krpc_client.py:87-90 | under one configuration, equal URLs mean equal service names |
| `Krpc.GetServiceRpcClient` | src/buckyos/krpc_client.py:93-103 | fails exactly when unconfigured; otherwise a channel to the service URL, seeded with the current account's token or none, numbered from the clock |
| `Krpc.ServiceClientFirstCall` | src/buckyos/krpc_client.py:87-103 | the first call on a fresh service channel goes to `{protocol}{zone host}/kapi/{service}` and sends the clock number with the current account's token |
| `JsonValues.PyInt` | src/buckyos/krpc_client.py:62-65 | a parsed value passes `isinstance(x, int)` exactly when it is an integer or a boolean, with `True` as 1 and `False` as 0 |
| `JsonValues.Get` | src/buckyos/krpc_client.py:77 | `dict.get`: the value under the key, or null when the key is absent |
| `Decimal.NatToString` | src/buckyos/account.py:34 | a non-empty run of decimal digits with no leading zero except for 0 itself |
| `Decimal.Show` | src/buckyos/account.py:34 | `str(n)`: a minus sign exactly for negative `n`, followed by digits; the 4300-digit conversion limit is not modelled |
| `Decimal.Parse` | src/buckyos/account.py:34 | the reference inverse of `str(n)` that `Decimal.ParseShow` is stated against; its own contract says only that a string without a leading minus sign reads as non-negative |
| `Decimal.DigitsValueOfNatToString` | src/buckyos/account.py:34 | the digits of `n` have value `n` |
| `Decimal.ParseShow` | src/buckyos/account.py:34 | reading back `str(n)` gives `n` |
| `Decimal.ShowInjective` | src/buckyos/account.py:34 | distinct integers render differently |
| `Account.HashPassword` | src/buckyos/account.py:25-36 | without a nonce, the digest of `password ++ username ++ ".buckyos"`; with one, the digest of that stage-one digest followed by the nonce in decimal |
| `Account.NoncedHashExtendsStageOne` | src/buckyos/account.py:30-36 | the nonce stage is the digest of the no-nonce result followed by `str(nonce)` |
| `Account.NoncedInput` | src/buckyos/account.py:33-36 | the text whose digest is the nonced hash |
| `Account.NoncedInputsDistinct` | src/buckyos/account.py:33-36 | distinct nonces feed distinct texts to the second hash round |
| `Account.StageOneAmbiguous` | src/buckyos/account.py:26-28 | (`"ab"`, `""`) and (`"b"`, `"a"`) hash alike, with or without a nonce, for every hash function |
| `Account.Cookie` | src/buckyos/account.py:57-63 | the cookie starts with `{app_id}_token={token}; `, continues with `path=/; expires`, then `=` and the expiry date, and ends with `; secure=True; samesite=Lax` |
| `Account.CleanLocalAccountInfo` | src/buckyos/account.py:38-48 | removes `account_info`, writes a cookie with an empty token and the past expiry, and changes no other key |
| `Account.SaveLocalAccountInfo` | src/buckyos/account.py:50-64 | a record without a token leaves the store unchanged; otherwise writes the encoded record under `account_info` and the token cookie, and changes no other key |
| `Account.GetLocalAccountInfo` | src/buckyos/account.py:66-72 | `None` exactly when `account_info` is absent; raises exactly when the stored text does not decode; otherwise the decoded record |
| `Account.SaveThenGet` | src/buckyos/account.py:50-72 | with a faithful codec, a record with a token reads back after saving |
| `Account.CleanThenGet` | src/buckyos/account.py:38-72 | after a clean the stored record reads as absent |
| `Account.SaveIdempotent` | src/buckyos/account.py:50-64 | saving the same record twice is saving it once |
| `Account.AccountToJson` | src/buckyos/account.py:16-21 | the record's JSON object has exactly the four field keys |
| `Account.AccountFromJson` | src/buckyos/account.py:96-97 | only an object with exactly the four field keys builds a record |
| `Account.AccountJsonRoundTrip` | src/buckyos/account.py:96-97 | a record's JSON object builds that record |
| `Account.AccountFromJsonOnlyRecords` | src/buckyos/account.py:96-97 | a value that builds a record is exactly that record's JSON object |
| `Account.DoLogin` | src/buckyos/account.py:74-100 | without an app id: no call, no store change, `None`. Otherwise it posts `login` to `{protocol}{zone host}/kapi/verify-hub` with `sys` equal to `[nonce, token]` (the clock nonce and the current account's token, or `[nonce]` when that token is empty or absent) and with the password hashed under that same nonce. It succeeds exactly when the reply is accepted and its `result` builds a record. A rejected reply raises the RPC error, and an accepted reply whose `result` is not a record raises the bad-record error. On failure the store only loses `account_info`. On success the record is saved |
| `Account.LoginNoncePinned` | src/buckyos/account.py:80-94 | the login envelope's `sys[0]` is the very nonce the sent password hash was salted with |
| `Config.NewConfig` | src/buckyos/config.py:4-8 | the protocol defaults to `http://` and the other fields are kept |
| `Config.Initial` | src/buckyos/config.py:11-14 | before any set, the config, app id, zone host and account are all `None` |
| `Config.GetBuckyOsConfig` | src/buckyos/config.py:13-14 | the configuration slot as it stands; `Config.SetConfigThenGet` shows it reflects the latest set |
| `Config.SetCurrentConfig` | src/buckyos/config.py:16-18 | the new config is read back whatever was there before; the account slot is untouched |
| `Config.GetZoneHostName` | src/buckyos/config.py:20-24 | `None` exactly when unconfigured, else the configured host |
| `Config.GetAppId` | src/buckyos/config.py:27-31 | `None` exactly when unconfigured, else the configured app id |
| `Config.GetAccountInfo` | src/buckyos/config.py:42-43 | the current-account slot as it stands; `Config.SetAccountThenGet` shows it returns the account last set |
| `Config.SetAccountInfo` | src/buckyos/config.py:45-47 | the account is read back and the config is untouched |
| `Config.SetConfigThenGet` | src/buckyos/config.py:13-31 | getters see a set config at once, and a second set replaces the first |
| `Config.SetAccountThenGet` | src/buckyos/config.py:40-47 | `set_account_info(a)` then `get_account_info()` gives `a` and leaves the config getters alone |
| `Facade.InitBuckyOs` | src/buckyos/main.py:9-18 | a configured state keeps its config; an unconfigured one takes the given config, or stays unconfigured on `None`; nothing else changes |
| `Facade.InitIsSetOnce` | src/buckyos/main.py:9-18 | after a first successful init, any further init is a no-op |
| `Facade.Login` | src/buckyos/main.py:33-63 | never changes the config. Unconfigured or an empty app id: returns `None` and changes nothing. On an exception the slots are unchanged. A returned account becomes the current account, and with a faithful codec a returned account with a token reads back from the store. With `auto_login`, an undecodable stored record raises and changes nothing. No key other than `account_info` and `cookie` ever changes, and off the fast path a successful login leaves exactly the cleaned store with the account saved into it. A call is made only off the fast path. Off the fast path with a non-empty zone host a call is always made, and an account is returned exactly when the reply is accepted and its `result` builds a record. Off the fast path with an empty zone host, the store is cleaned and `None` is returned with no call. A reported request is exactly the envelope `do_login` sends on the cleaned store |
| `Facade.LoginFastPath` | src/buckyos/main.py:43-47 | with `auto_login` and a readable stored record, that record is returned and set as current, with no call and no store change |
| `Facade.LoginCleansBeforeHandshake` | src/buckyos/main.py:49-56 | off the fast path, a failed or empty login leaves no record and an empty, expired token cookie |
| `Facade.LoginSucceeds` | src/buckyos/main.py:55-60 | for the reply `{result: <the record's JSON>, sys: [nonce, token]}`, where the record carries `token`, that record is returned, set as current, and reads back from the store |
| `Facade.LoginRemoteErrorPersistsNothing` | src/buckyos/main.py:55-63 | a reply with `error` makes login raise, with the slots unchanged and no stored record |
| `Facade.LogoutAsWritten` | src/buckyos/main.py:65-80 | never changes anything; raises `RecursionError` exactly when configured with a non-empty app id |
| `Facade.LogoutAsWrittenKeepsRecord` | src/buckyos/main.py:23-25 | right after a successful login, `logout(True)` as written raises and the record still reads back |
| `Facade.Logout` | src/main.py:80-95 | corrected guard: never raises and never clears the current account; unconfigured or with an empty app id it changes nothing; `logout(False)` and a logout without an account leave the store unchanged; `logout(True)`, configured with a non-empty app id and holding an account, cleans exactly the record and cookie |
| `Facade.LogoutAfterLoginClearsRecord` | src/buckyos/main.py:65-80 | with the corrected guard, `logout(True)` after a successful login leaves no stored record while the current account stays set |

## Findings

| source | as written | input that shows it | evidently intended | confidence | as-written member | corrected member |
|---|---|---|---|---|---|---|
| src/buckyos/main.py:23-25 | the module-level `get_account_info` calls itself (the imports at lines 4-6 do not bring in `config.get_account_info`), so `logout`'s guard at line 75 raises `RecursionError` | any configured state with a non-empty app id, e.g. `logout(True)` right after a successful login | the guard reads the current account slot, as `src/main.py:90` does, and `logout(True)` then cleans the stored session | high, not executed | `Facade.LogoutAsWritten`, `Facade.LogoutAsWrittenKeepsRecord` | `Facade.Logout`, `Facade.LogoutAfterLoginClearsRecord` |

`Facade.LogoutAsWritten` models `logout` as written. `Facade.Logout` is the corrected
definition.

## Left out

- HTTP transport (`requests.post`, `response.ok`, `response.json()`): replaced by the `Reply` parameter; headers and the serialized request body are not modelled.
- Exception classes and message texts: each raise is one `Failure` kind; the catch-all that re-wraps internal `RPCError`s as "Unexpected error" changes only the text.
- SHA-256, base64 and UTF-8: uninterpreted functions in `Crypto`; no collision or uniqueness claim is made about them.
- JSON text of the stored record (`json.dumps` / `json.loads`): an uninterpreted `encode`/`decode` pair; round trips are assumed only where a lemma requires `RoundTrips`.
- Clock readings: the login nonce, the channel's default number and the cookie expiry dates are the `Clock` parameter, one snapshot per operation. The two saves of one login therefore share one expiry date, where Python reads the clock twice.
- `print` logging, `async`/`await`, and concurrent use of one channel.
- `get_runtime_type`: it only reports the interpreter version.
- `get_account_info` in `src/buckyos/main.py` as an entry point: it never returns, and only its effect on `logout` is modelled.
- `kRPCClient.protocol_type` and `RPCProtocolType`: a constant that nothing reads.
- The `AccountInfo` wrapper class of `config.py`: the current-account slot holds `account.py` records, which is what `login` stores there.
- `src/main.py`: a stale copy of the package facade; only its `logout` guard is used, as the corrected intent.
- Config fields are strings; Python would also accept `None` in them.
- Account.AccountFromJson: accepts only string fields and a string-or-null token, whereas `AccountInfo(**d)` accepts values of any JSON type for the four keys.
- Decimal.Show: CPython raises `ValueError` when converting an integer of more than 4300 digits to a string, which would make `hash_password` raise; the model renders every integer, because the nonce is a clock reading of about 13 digits.

=== FILE: account.dfy ===
/** Session persistence and the login handshake of `buckyos/account.py`.

    The browser-style local storage is a `Store`, a map from keys to
    strings. SHA-256, base64 and UTF-8 are opaque functions carried in a
    `Crypto` value. The JSON text of the stored account record is an opaque
    pair of function parameters: `encode` is `json.dumps(account.__dict__)`
    and `decode` is `AccountInfo(**json.loads(text))`, yielding `None` where
    either step would raise. The model claims nothing about their internals.
    `AccountToJson` is the record's parsed JSON shape as a login reply's
    `result` carries it; it serves to state login replies and is not tied
    to `encode`. */
module Account {
  import opened Base
  import opened JsonValues
  import Decimal
  import opened Config
  import opened Krpc

  type Store = map<string, string>
  type Bytes = seq<bv8>

  /** The storage key of the serialized account record. */
  const ACCOUNT_KEY: string := "account_info"
  /** The storage key of the cookie string that mirrors the session token. */
  const COOKIE_KEY: string := "cookie"
  /** The name of the authentication service. */
  const VERIFY_HUB: string := "verify-hub"
  /** The salt appended to `password ++ username` before the first hash. */
  const HASH_SALT: string := ".buckyos"
  /** The keys of a JSON account record, as `AccountInfo(**d)` demands them. */
  const RECORD_KEYS: set<string> := {"user_name", "user_id", "user_type", "session_token"}

  /** UTF-8 encoding, SHA-256 and base64 encoding, left uninterpreted. */
  datatype Crypto = Crypto(utf8: string -> Bytes, sha256: Bytes -> Bytes, b64: Bytes -> string)

  /** Readings of the wall clock an operation makes: milliseconds since the
      epoch, and the printed dates one day back and thirty days ahead that
      go into cookie expiries. */
  datatype Clock = Clock(nowMillis: int, pastExpiry: string, futureExpiry: string)

  /** What `do_login` did: the store afterwards, the envelope it sent (none
      when it made no call) and what it returned or raised. */
  datatype LoginStep = LoginStep(store: Store, request: Option<Request>, outcome: Outcome<Option<AccountInfo>>)

  /** The record text reads back as every record it was written from. */
  ghost predicate RoundTrips(encode: AccountInfo -> string, decode: string -> Option<AccountInfo>) {
    forall a :: decode(encode(a)) == Some(a)
  }

  /** Two stores agree on every key outside `keys`. */
  ghost predicate SameOutside(s: Store, t: Store, keys: set<string>) {
    forall k :: k !in keys ==> (k in s <==> k in t) && (k in s ==> s[k] == t[k])
  }

  /** `base64(sha256(utf8(text)))` as a string. */
  function Digest(crypto: Crypto, text: string): string {
    crypto.b64(crypto.sha256(crypto.utf8(text)))
  }

  /** `hash_password`: the stage-one digest of `password ++ username ++ ".buckyos"`,
      and, when a nonce is given, the digest of the stage-one digest followed
      by the nonce in decimal. */
  function HashPassword(crypto: Crypto, username: string, password: string, nonce: Option<int>): (h: string)
    ensures nonce.None? ==> h == Digest(crypto, password + username + HASH_SALT)
    ensures nonce.Some? ==> h == Digest(crypto, Digest(crypto, password + username + HASH_SALT) + Decimal.Show(nonce.value))
  {
    var stageOne := Digest(crypto, password + username + HASH_SALT);
    if nonce.None? then stageOne else Digest(crypto, stageOne + Decimal.Show(nonce.value))
  }

  /** The nonce stage is built on the stage-one result: hashing with a nonce
      is hashing the no-nonce result followed by the nonce in decimal. */
  lemma NoncedHashExtendsStageOne(crypto: Crypto, username: string, password: string, nonce: int)
    ensures HashPassword(crypto, username, password, Some(nonce))
         == Digest(crypto, HashPassword(crypto, username, password, None) + Decimal.Show(nonce))
  {
  }

  /** The text the second SHA-256 round hashes for a given nonce. */
  function NoncedInput(crypto: Crypto, username: string, password: string, nonce: int): (t: string)
    ensures Digest(crypto, t) == HashPassword(crypto, username, password, Some(nonce))
  {
    HashPassword(crypto, username, password, None) + Decimal.Show(nonce)
  }

  /** Distinct nonces feed distinct texts to the second hash round, so a
      digest made for one nonce is not the digest for another unless SHA-256
      itself collides. */
  lemma NoncedInputsDistinct(crypto: Crypto, username: string, password: string, n1: int, n2: int)
    requires n1 != n2
    ensures NoncedInput(crypto, username, password, n1) != NoncedInput(crypto, username, password, n2)
  {
    var stageOne := HashPassword(crypto, username, password, None);
    var t1 := NoncedInput(crypto, username, password, n1);
    var t2 := NoncedInput(crypto, username, password, n2);
    if t1 == t2 {
      assert t1[|stageOne|..] == Decimal.Show(n1);
      assert t2[|stageOne|..] == Decimal.Show(n2);
      Decimal.ShowInjective(n1, n2);
      assert false;
    }
  }

  /** The stage-one text concatenates password and username without a
      separator, so different (username, password) pairs can share a digest
      whatever the hash function is. */
  lemma StageOneAmbiguous(crypto: Crypto)
    ensures HashPassword(crypto, "ab", "", None) == HashPassword(crypto, "b", "a", None)
    ensures HashPassword(crypto, "ab", "", Some(0)) == HashPassword(crypto, "b", "a", Some(0))
  {
    assert "" + "ab" + HASH_SALT == "a" + "b" + HASH_SALT;
  }

  /** The cookie string: `{appId}_token={token}; path=/; expires={date}; secure=True; samesite=Lax`. */
  function Cookie(appId: string, token: string, expires: string): (c: string)
    ensures |c| == |appId| + |token| + |expires| + 52
    ensures c[..|appId| + 7 + |token| + 2] == appId + "_token=" + token + "; "
    ensures c[|appId| + 7 + |token| + 2..][..15] == "path=/; expires"
    ensures c[|appId| + 9 + |token| + 15..|c| - 27] == "=" + expires
    ensures c[|c| - 27..] == "; secure=True; samesite=Lax"
  {
    appId + "_token=" + token + "; " + "path=/; expires=" + expires + "; secure=True; samesite=Lax"
  }

  /** `clean_local_account_info`: drops the record and writes a cookie with an
      empty token and an expiry in the past. */
  function CleanLocalAccountInfo(store: Store, appId: string, pastExpiry: string): (s: Store)
    ensures ACCOUNT_KEY !in s
    ensures COOKIE_KEY in s && s[COOKIE_KEY] == Cookie(appId, "", pastExpiry)
    ensures SameOutside(s, store, {ACCOUNT_KEY, COOKIE_KEY})
  {
    (store - {ACCOUNT_KEY})[COOKIE_KEY := Cookie(appId, "", pastExpiry)]
  }

  /** `save_local_account_info`: a record without a token is not saved at
      all; otherwise the record and a cookie carrying its token are written. */
  function SaveLocalAccountInfo(store: Store, encode: AccountInfo -> string, appId: string, a: AccountInfo, futureExpiry: string): (s: Store)
    ensures a.sessionToken.None? ==> s == store
    ensures a.sessionToken.Some? ==>
      && ACCOUNT_KEY in s && s[ACCOUNT_KEY] == encode(a)
      && COOKIE_KEY in s && s[COOKIE_KEY] == Cookie(appId, a.sessionToken.value, futureExpiry)
    ensures SameOutside(s, store, {ACCOUNT_KEY, COOKIE_KEY})
  {
    match a.sessionToken
    case None => store
    case Some(token) => store[ACCOUNT_KEY := encode(a)][COOKIE_KEY := Cookie(appId, token, futureExpiry)]
  }

  /** `get_local_account_info`: no record means `None`; a record that does
      not decode raises rather than counting as absent. */
  function GetLocalAccountInfo(store: Store, decode: string -> Option<AccountInfo>): (r: Outcome<Option<AccountInfo>>)
    ensures r == Ok(None) <==> ACCOUNT_KEY !in store
    ensures r.Err? <==> ACCOUNT_KEY in store && decode(store[ACCOUNT_KEY]).None?
    ensures r.Err? ==> r.failure == UnreadableRecord
    ensures r.Ok? && r.value.Some? ==> ACCOUNT_KEY in store && decode(store[ACCOUNT_KEY]) == r.value
  {
    if ACCOUNT_KEY !in store then Ok(None)
    else
      match decode(store[ACCOUNT_KEY])
      case None => Err(UnreadableRecord)
      case Some(a) => Ok(Some(a))
  }

  /** Saving a record with a token and reading it back gives the record. */
  lemma SaveThenGet(store: Store, encode: AccountInfo -> string, decode: string -> Option<AccountInfo>, appId: string, a: AccountInfo, futureExpiry: string)
    requires RoundTrips(encode, decode)
    requires a.sessionToken.Some?
    ensures GetLocalAccountInfo(SaveLocalAccountInfo(store, encode, appId, a, futureExpiry), decode) == Ok(Some(a))
  {
  }

  /** After a clean nothing is read back. */
  lemma CleanThenGet(store: Store, decode: string -> Option<AccountInfo>, appId: string, pastExpiry: string)
    ensures GetLocalAccountInfo(CleanLocalAccountInfo(store, appId, pastExpiry), decode) == Ok(None)
  {
  }

  /** Saving the same record twice with the same expiry is saving it once. */
  lemma SaveIdempotent(store: Store, encode: AccountInfo -> string, appId: string, a: AccountInfo, futureExpiry: string)
    ensures var once := SaveLocalAccountInfo(store, encode, appId, a, futureExpiry);
            SaveLocalAccountInfo(once, encode, appId, a, futureExpiry) == once
  {
  }

  /** The JSON shape of an account record. */
  function AccountToJson(a: AccountInfo): (j: Json)
    ensures j.JObj? && j.fields.Keys == RECORD_KEYS
  {
    JObj(map[
      "user_name" := JStr(a.userName),
      "user_id" := JStr(a.userId),
      "user_type" := JStr(a.userType),
      "session_token" := if a.sessionToken.Some? then JStr(a.sessionToken.value) else JNull])
  }

  /** `AccountInfo(**d)` on a login result: an object with exactly the four
      record keys, three string fields and a string-or-null token. */
  function AccountFromJson(j: Json): (r: Option<AccountInfo>)
    ensures r.Some? ==> j.JObj? && j.fields.Keys == RECORD_KEYS
  {
    if && j.JObj? && j.fields.Keys == RECORD_KEYS
       && j.fields["user_name"].JStr? && j.fields["user_id"].JStr? && j.fields["user_type"].JStr?
       && (j.fields["session_token"].JStr? || j.fields["session_token"].JNull?)
    then
      var token := j.fields["session_token"];
      Some(AccountInfo(j.fields["user_name"].s, j.fields["user_id"].s, j.fields["user_type"].s,
                       if token.JStr? then Some(token.s) else None))
    else None
  }

  /** Reading a record's JSON shape gives the record back. */
  lemma AccountJsonRoundTrip(a: AccountInfo)
    ensures AccountFromJson(AccountToJson(a)) == Some(a)
  {
  }

  /** Only the JSON shape of a record reads as that record. */
  lemma AccountFromJsonOnlyRecords(j: Json, a: AccountInfo)
    requires AccountFromJson(j) == Some(a)
    ensures j == AccountToJson(a)
  {
  }

  /** The parameters of the `login` call. */
  function LoginParams(username: string, passwordHash: string, appId: string): Json {
    JObj(map[
      "type" := JStr("password"),
      "username" := JStr(username),
      "password" := JStr(passwordHash),
      "appid" := JStr(appId)])
  }

  /** `do_login`. Without an application id it does nothing. Otherwise it
      derives the nonce from the clock, hashes the password with it, drops
      the stored record, pins the verify-hub channel's sequence number to the
      same nonce, calls `login`, and saves the account the server returns. */
  function DoLogin(p: Process, store: Store, crypto: Crypto, encode: AccountInfo -> string, username: string, password: string,
                   clock: Clock, reply: Reply): (r: LoginStep)
    ensures GetAppId(p).None? ==> r == LoginStep(store, None, Ok(None))
    ensures GetAppId(p).Some? ==>
      && r.request.Some?
      && r.request.value.url == GetZoneServiceUrl(p, VERIFY_HUB).value
      && r.request.value.name == "login"
      && r.request.value.sys == RequestSys(clock.nowMillis, AccountToken(p))
      && r.request.value.params
         == LoginParams(username, HashPassword(crypto, username, password, Some(clock.nowMillis)), GetAppId(p).value)
    ensures GetAppId(p).Some? ==>
      (r.outcome.Ok? <==> Accepted(reply, clock.nowMillis) && AccountFromJson(Get(reply.json.fields, "result")).Some?)
    ensures GetAppId(p).Some? && r.outcome.Err? ==>
      r.outcome.failure == (if Accepted(reply, clock.nowMillis) then BadAccountRecord else RpcError)
    ensures GetAppId(p).Some? ==>
      || (r.outcome.Ok? && r.outcome.value.Some?)
      || (r.outcome.Err? && r.store == store - {ACCOUNT_KEY})
    ensures r.outcome.Ok? && r.outcome.value.Some? ==>
      && Accepted(reply, clock.nowMillis)
      && AccountFromJson(Get(reply.json.fields, "result")) == r.outcome.value
      && r.store == SaveLocalAccountInfo(store - {ACCOUNT_KEY}, encode, GetAppId(p).value, r.outcome.value.value, clock.futureExpiry)
  {
    var appId := GetAppId(p);
    if appId.None? then LoginStep(store, None, Ok(None))
    else
      var nonce := clock.nowMillis;
      var passwordHash := HashPassword(crypto, username, password, Some(nonce));
      var dropped := store - {ACCOUNT_KEY};
      var channel := SetSeq(GetServiceRpcClient(p, VERIFY_HUB, clock.nowMillis).value, nonce);
      var called := Call(channel, "login", LoginParams(username, passwordHash, appId.value), reply);
      match called.outcome
      case Err(f) => LoginStep(dropped, Some(called.request), Err(f))
      case Ok(result) =>
        match AccountFromJson(result)
        case None => LoginStep(dropped, Some(called.request), Err(BadAccountRecord))
        case Some(a) =>
          LoginStep(SaveLocalAccountInfo(dropped, encode, appId.value, a, clock.futureExpiry), Some(called.request), Ok(Some(a)))
  }

  /** The nonce is shared: the number the login envelope carries is the one
      the password hash was salted with. */
  lemma LoginNoncePinned(p: Process, store: Store, crypto: Crypto, encode: AccountInfo -> string, username: string, password: string,
                         clock: Clock, reply: Reply)
    requires GetAppId(p).Some?
    ensures var req := DoLogin(p, store, crypto, encode, username, password, clock, reply).request.value;
            && req.sys[0].JInt?
            && req.params.JObj? && "password" in req.params.fields
            && req.params.fields["password"] == JStr(HashPassword(crypto, username, password, Some(req.sys[0].i)))
  {
  }
}

=== FILE: base.dfy ===
/** Shared result shapes for the SDK model.

    Python signals every failure by raising. Here an operation that can raise
    returns an `Outcome`, and the kind of exception is a `Failure`. */
module Base {

  /** Python's `Optional[T]`: `None` or a present value. */
  datatype Option<+T> = None | Some(value: T)

  /** The exceptions the SDK can raise, one constructor per source of failure. */
  datatype Failure =
    | NotInitialized      // a service client asked for before any configuration
    | RpcError            // every failure inside `kRPCClient._call`, wrapped as `RPCError`
    | BadAccountRecord    // `AccountInfo(**d)` on a value that is not a four-field record
    | UnreadableRecord    // the stored record does not decode (`json.loads` or `AccountInfo(**d)`)
    | RecursionLimit      // `RecursionError` from a function that calls itself without end

  /** The value an operation returns, or the exception it raises. */
  datatype Outcome<+T> = Ok(value: T) | Err(failure: Failure)
}

=== FILE: config.dfy ===
/** The process-wide configuration of `buckyos/config.py`.

    The module keeps two optional slots, the current configuration and the
    current account. Here both live in one immutable `Process` value that
    every getter reads and every setter returns anew. */
module Config {
  import opened Base

  /** The scheme prefixed to every service URL unless the caller names one. */
  const DEFAULT_PROTOCOL: string := "http://"

  datatype BuckyOSConfig = BuckyOSConfig(zoneHostName: string, appId: string, defaultProtocol: string)

  /** The account record a successful login produces. The token is `None`
      when the server sent JSON null for it. */
  datatype AccountInfo = AccountInfo(userName: string, userId: string, userType: string, sessionToken: Option<string>)

  /** The two module-level slots `_current_config` and `_current_account_info`. */
  datatype Process = Process(config: Option<BuckyOSConfig>, account: Option<AccountInfo>)

  /** `BuckyOSConfig(zoneHostName, appId, defaultProtocol="http://")`. */
  function NewConfig(zoneHostName: string, appId: string, protocol: Option<string>): (c: BuckyOSConfig)
    ensures c.zoneHostName == zoneHostName && c.appId == appId
    ensures protocol.None? ==> c.defaultProtocol == DEFAULT_PROTOCOL
    ensures protocol.Some? ==> c.defaultProtocol == protocol.value
  {
    BuckyOSConfig(zoneHostName, appId, if protocol.Some? then protocol.value else DEFAULT_PROTOCOL)
  }

  /** The state at import time: both slots empty. */
  function Initial(): (p: Process)
    ensures GetBuckyOsConfig(p).None? && GetAppId(p).None? && GetZoneHostName(p).None?
    ensures GetAccountInfo(p).None?
  {
    Process(None, None)
  }

  /** `get_bucky_os_config`: the configuration slot as it stands. */
  function GetBuckyOsConfig(p: Process): (r: Option<BuckyOSConfig>)
    ensures r == p.config
  {
    p.config
  }

  /** Unconditional overwrite: any earlier configuration is replaced. */
  function SetCurrentConfig(p: Process, c: BuckyOSConfig): (q: Process)
    ensures GetBuckyOsConfig(q) == Some(c)
    ensures GetAccountInfo(q) == GetAccountInfo(p)
  {
    p.(config := Some(c))
  }

  /** `get_zone_host_name`: the configured host, or `None` before configuration. */
  function GetZoneHostName(p: Process): (r: Option<string>)
    ensures r.None? <==> GetBuckyOsConfig(p).None?
    ensures r.Some? ==> r.value == GetBuckyOsConfig(p).value.zoneHostName
  {
    match p.config
    case None => None
    case Some(c) => Some(c.zoneHostName)
  }

  /** `get_app_id`: the configured application id, or `None` before configuration. */
  function GetAppId(p: Process): (r: Option<string>)
    ensures r.None? <==> GetBuckyOsConfig(p).None?
    ensures r.Some? ==> r.value == GetBuckyOsConfig(p).value.appId
  {
    if p.config.Some? then Some(p.config.value.appId) else None
  }

  /** `get_account_info`: the current-account slot as it stands. */
  function GetAccountInfo(p: Process): (r: Option<AccountInfo>)
    ensures r == p.account
  {
    p.account
  }

  function SetAccountInfo(p: Process, a: AccountInfo): (q: Process)
    ensures GetAccountInfo(q) == Some(a)
    ensures GetBuckyOsConfig(q) == GetBuckyOsConfig(p)
  {
    p.(account := Some(a))
  }

  /** Setting the configuration is visible through every getter at once, and
      a second set wins over the first. */
  lemma SetConfigThenGet(p: Process, c1: BuckyOSConfig, c2: BuckyOSConfig)
    ensures GetAppId(SetCurrentConfig(p, c1)) == Some(c1.appId)
    ensures GetZoneHostName(SetCurrentConfig(p, c1)) == Some(c1.zoneHostName)
    ensures SetCurrentConfig(SetCurrentConfig(p, c1), c2) == SetCurrentConfig(p, c2)
    ensures GetBuckyOsConfig(SetCurrentConfig(SetCurrentConfig(p, c1), c2)) == Some(c2)
  {
  }

  /** Setting the account is visible to the getter and touches nothing else. */
  lemma SetAccountThenGet(p: Process, a: AccountInfo)
    ensures GetAccountInfo(SetAccountInfo(p, a)) == Some(a)
    ensures GetAppId(SetAccountInfo(p, a)) == GetAppId(p)
    ensures GetZoneHostName(SetAccountInfo(p, a)) == GetZoneHostName(p)
  {
  }
}

=== FILE: decimal.dfy ===
/** Python's `str(n)` for an `int`: an optional minus sign followed by the
    decimal digits, without leading zeros. The password hash appends a nonce
    in this form, so the model needs it exactly, together with a parser that
    shows the rendering loses nothing. */
module Decimal {
  import opened Base

  predicate IsDigit(c: char) {
    '0' <= c <= '9'
  }

  predicate AllDigits(s: string) {
    forall i :: 0 <= i < |s| ==> IsDigit(s[i])
  }

  function DigitChar(d: nat): (c: char)
    requires d < 10
    ensures IsDigit(c)
    ensures c as int - '0' as int == d
  {
    "0123456789"[d]
  }

  function DigitValue(c: char): (d: nat)
    requires IsDigit(c)
    ensures d < 10
  {
    c as int - '0' as int
  }

  /** The digits of a natural number, most significant first. */
  function NatToString(n: nat): (s: string)
    ensures |s| >= 1
    ensures AllDigits(s)
    ensures s[0] == '0' ==> n == 0
    decreases n
  {
    if n < 10 then [DigitChar(n)] else NatToString(n / 10) + [DigitChar(n % 10)]
  }

  /** `str(n)`, for integers within CPython's default limit of 4300 digits
      on int-to-string conversion; past it Python raises `ValueError`, which
      this function does not model. */
  function Show(n: int): (s: string)
    ensures |s| >= 1
    ensures n < 0 <==> s[0] == '-'
    ensures n >= 0 ==> AllDigits(s)
    ensures n < 0 ==> |s| >= 2 && AllDigits(s[1..])
  {
    if n < 0 then "-" + NatToString(-n) else NatToString(n)
  }

  /** The value of a run of decimal digits. */
  function DigitsValue(s: string): nat
    requires AllDigits(s)
  {
    if |s| == 0 then 0 else DigitsValue(s[..|s| - 1]) * 10 + DigitValue(s[|s| - 1])
  }

  /** The reference reader of `Show`: an optional minus sign and at least
      one digit; anything else is rejected. Nothing in the SDK parses a
      nonce back; this exists so that `ParseShow` can state the round trip. */
  function Parse(s: string): (r: Option<int>)
    ensures r.Some? && |s| > 0 && s[0] != '-' ==> r.value >= 0
  {
    if |s| >= 2 && s[0] == '-' && AllDigits(s[1..]) then Some(-(DigitsValue(s[1..]) as int))
    else if |s| >= 1 && AllDigits(s) then Some(DigitsValue(s))
    else None
  }

  lemma {:induction false} DigitsValueOfNatToString(n: nat)
    ensures DigitsValue(NatToString(n)) == n
    decreases n
  {
    if n >= 10 {
      var s := NatToString(n);
      assert s[..|s| - 1] == NatToString(n / 10);
      DigitsValueOfNatToString(n / 10);
    }
  }

  /** Rendering an integer and reading it back gives the integer. */
  lemma {:induction false} ParseShow(n: int)
    ensures Parse(Show(n)) == Some(n)
  {
    var s := Show(n);
    if n < 0 {
      var t := NatToString(-n);
      assert s == "-" + t;
      assert s[1..] == t;
      DigitsValueOfNatToString(-n);
      assert Parse(s) == Some(-(DigitsValue(t) as int));
    } else {
      var t := NatToString(n);
      assert s == t;
      DigitsValueOfNatToString(n);
      assert s[0] != '-';
      assert Parse(s) == Some(DigitsValue(t));
    }
  }

  /** Distinct integers render as distinct strings. */
  lemma ShowInjective(a: int, b: int)
    requires Show(a) == Show(b)
    ensures a == b
  {
    ParseShow(a);
    ParseShow(b);
  }
}

=== FILE: facade.dfy ===
/** The package entry points of `buckyos/main.py`: `init_bucky_os`, `login`
    and `logout`, over the whole client state (both configuration slots and
    the local store). */
module Facade {
  import opened Base
  import opened JsonValues
  import opened Config
  import opened Krpc
  import opened Account

  /** Everything the entry points read or write. */
  datatype Sdk = Sdk(process: Process, store: Store)

  /** What `login` did: the state afterwards, the login envelope if one was
      sent, and what it returned or raised. */
  datatype LoginRun = LoginRun(sdk: Sdk, request: Option<Request>, outcome: Outcome<Option<AccountInfo>>)

  /** What `logout` did: the state afterwards and whether it raised. */
  datatype LogoutRun = LogoutRun(sdk: Sdk, outcome: Outcome<()>)

  /** `init_bucky_os(config)`: set-at-most-once. An already configured state
      is left alone, and a missing configuration changes nothing. */
  function InitBuckyOs(s: Sdk, config: Option<BuckyOSConfig>): (t: Sdk)
    ensures t.store == s.store && GetAccountInfo(t.process) == GetAccountInfo(s.process)
    ensures GetBuckyOsConfig(s.process).Some? ==> GetBuckyOsConfig(t.process) == GetBuckyOsConfig(s.process)
    ensures GetBuckyOsConfig(s.process).None? ==> GetBuckyOsConfig(t.process) == config
  {
    if s.process.config.Some? then s
    else if config.Some? then s.(process := SetCurrentConfig(s.process, config.value))
    else s
  }

  /** Only the first configuration ever takes effect. */
  lemma InitIsSetOnce(s: Sdk, c1: BuckyOSConfig, c2: Option<BuckyOSConfig>)
    requires GetBuckyOsConfig(s.process).None?
    ensures GetBuckyOsConfig(InitBuckyOs(InitBuckyOs(s, Some(c1)), c2).process) == Some(c1)
    ensures InitBuckyOs(InitBuckyOs(s, Some(c1)), c2) == InitBuckyOs(s, Some(c1))
  {
  }

  /** Configured with an application id, and either not asked to log in
      automatically or holding no stored record: `login` goes to the server. */
  predicate OffFastPath(s: Sdk, decode: string -> Option<AccountInfo>, autoLogin: bool) {
    && GetBuckyOsConfig(s.process).Some? && GetAppId(s.process).value != ""
    && (!autoLogin || GetLocalAccountInfo(s.store, decode) == Ok(None))
  }

  /** Configured with an application id, asked to log in automatically, and
      holding a stored record that does not decode: `login` raises at once. */
  predicate UnreadableOnAutoLogin(s: Sdk, decode: string -> Option<AccountInfo>, autoLogin: bool) {
    && autoLogin && GetBuckyOsConfig(s.process).Some? && GetAppId(s.process).value != ""
    && GetLocalAccountInfo(s.store, decode).Err?
  }

  /** `login(username, password, auto_login)`. In order: no configuration or
      an empty application id returns `None`; with `auto_login` a stored
      record is adopted without any call; otherwise the stored session is
      cleaned, an empty zone host returns `None`, and `do_login` runs. Its
      account is saved again and becomes the current account; its
      exception propagates. */
  function Login(s: Sdk, crypto: Crypto, encode: AccountInfo -> string, decode: string -> Option<AccountInfo>,
                 username: string, password: string, autoLogin: bool, clock: Clock, reply: Reply): (r: LoginRun)
    ensures GetBuckyOsConfig(r.sdk.process) == GetBuckyOsConfig(s.process)
    ensures GetBuckyOsConfig(s.process).None? || GetAppId(s.process).value == "" ==> r == LoginRun(s, None, Ok(None))
    ensures r.outcome.Err? ==> r.sdk.process == s.process
    ensures r.outcome.Ok? && r.outcome.value.Some? ==> GetAccountInfo(r.sdk.process) == r.outcome.value
    ensures r.outcome.Ok? && r.outcome.value.None? ==> r.sdk.process == s.process
    ensures r.request.Some? ==> !autoLogin || GetLocalAccountInfo(s.store, decode) == Ok(None)
    ensures OffFastPath(s, decode, autoLogin) && GetZoneHostName(s.process).value != "" ==>
      && r.request.Some?
      && (r.outcome.Ok? <==> Accepted(reply, clock.nowMillis) && AccountFromJson(Get(reply.json.fields, "result")).Some?)
    ensures RoundTrips(encode, decode) && r.outcome.Ok? && r.outcome.value.Some? && r.outcome.value.value.sessionToken.Some? ==>
      GetLocalAccountInfo(r.sdk.store, decode) == r.outcome
    ensures SameOutside(r.sdk.store, s.store, {ACCOUNT_KEY, COOKIE_KEY})
    ensures OffFastPath(s, decode, autoLogin) && GetZoneHostName(s.process).value == "" ==>
      r == LoginRun(s.(store := CleanLocalAccountInfo(s.store, GetAppId(s.process).value, clock.pastExpiry)), None, Ok(None))
    ensures r.request.Some? ==>
      r.request == DoLogin(s.process, CleanLocalAccountInfo(s.store, GetAppId(s.process).value, clock.pastExpiry),
                           crypto, encode, username, password, clock, reply).request
    ensures UnreadableOnAutoLogin(s, decode, autoLogin) ==> r == LoginRun(s, None, Err(UnreadableRecord))
    ensures OffFastPath(s, decode, autoLogin) && r.outcome.Ok? && r.outcome.value.Some? ==>
      r.sdk.store == SaveLocalAccountInfo(CleanLocalAccountInfo(s.store, GetAppId(s.process).value, clock.pastExpiry),
                                          encode, GetAppId(s.process).value, r.outcome.value.value, clock.futureExpiry)
  {
    var appId := GetAppId(s.process);
    if s.process.config.None? then LoginRun(s, None, Ok(None))
    else if appId.value == "" then LoginRun(s, None, Ok(None))
    else
      var local := if autoLogin then GetLocalAccountInfo(s.store, decode) else Ok(None);
      match local
      case Err(f) => LoginRun(s, None, Err(f))
      case Ok(Some(a)) => LoginRun(s.(process := SetAccountInfo(s.process, a)), None, Ok(Some(a)))
      case Ok(None) =>
        var cleaned := CleanLocalAccountInfo(s.store, appId.value, clock.pastExpiry);
        if GetZoneHostName(s.process).value == "" then LoginRun(s.(store := cleaned), None, Ok(None))
        else
          var step := DoLogin(s.process, cleaned, crypto, encode, username, password, clock, reply);
          match step.outcome
          case Err(f) => LoginRun(s.(store := step.store), step.request, Err(f))
          case Ok(None) => LoginRun(s.(store := step.store), step.request, Ok(None))
          case Ok(Some(a)) =>
            var saved := SaveLocalAccountInfo(step.store, encode, appId.value, a, clock.futureExpiry);
            LoginRun(Sdk(SetAccountInfo(s.process, a), saved), step.request, Ok(Some(a)))
  }

  /** The fast path: with `auto_login` and a readable stored record, that
      record becomes the current account and is returned; nothing is sent
      and the store is not touched. */
  lemma LoginFastPath(s: Sdk, crypto: Crypto, encode: AccountInfo -> string, decode: string -> Option<AccountInfo>,
                      username: string, password: string, clock: Clock, reply: Reply, a: AccountInfo)
    requires GetBuckyOsConfig(s.process).Some? && GetAppId(s.process).value != ""
    requires GetLocalAccountInfo(s.store, decode) == Ok(Some(a))
    ensures var r := Login(s, crypto, encode, decode, username, password, true, clock, reply);
            && r.request.None?
            && r.outcome == Ok(Some(a))
            && r.sdk.store == s.store
            && GetAccountInfo(r.sdk.process) == Some(a)
  {
  }

  /** Off the fast path the stored record is cleaned before `do_login`: if
      the handshake then fails, no record is left and the cookie carries an
      empty, expired token. */
  lemma LoginCleansBeforeHandshake(s: Sdk, crypto: Crypto, encode: AccountInfo -> string, decode: string -> Option<AccountInfo>,
                                   username: string, password: string, autoLogin: bool, clock: Clock, reply: Reply)
    requires GetBuckyOsConfig(s.process).Some? && GetAppId(s.process).value != ""
    requires !autoLogin || ACCOUNT_KEY !in s.store
    ensures var r := Login(s, crypto, encode, decode, username, password, autoLogin, clock, reply);
            (r.outcome.Err? || r.outcome == Ok(None)) ==>
              && ACCOUNT_KEY !in r.sdk.store
              && COOKIE_KEY in r.sdk.store
              && r.sdk.store[COOKIE_KEY] == Cookie(GetAppId(s.process).value, "", clock.pastExpiry)
  {
  }

  /** A successful login end to end: the server echoes the nonce and returns
      a record with a token. The record is returned, becomes the current
      account, and reads back from the store. */
  lemma LoginSucceeds(s: Sdk, crypto: Crypto, encode: AccountInfo -> string, decode: string -> Option<AccountInfo>,
                      username: string, password: string, autoLogin: bool, clock: Clock, a: AccountInfo, token: string)
    requires RoundTrips(encode, decode)
    requires GetBuckyOsConfig(s.process).Some?
    requires GetAppId(s.process).value != "" && GetZoneHostName(s.process).value != ""
    requires !autoLogin || ACCOUNT_KEY !in s.store
    requires a.sessionToken == Some(token)
    ensures var reply := Body(JObj(map["result" := AccountToJson(a), "sys" := JArr([JInt(clock.nowMillis), JStr(token)])]));
            var r := Login(s, crypto, encode, decode, username, password, autoLogin, clock, reply);
            && r.request.Some?
            && r.outcome == Ok(Some(a))
            && GetAccountInfo(r.sdk.process) == Some(a)
            && GetLocalAccountInfo(r.sdk.store, decode) == Ok(Some(a))
  {
    var reply := Body(JObj(map["result" := AccountToJson(a), "sys" := JArr([JInt(clock.nowMillis), JStr(token)])]));
    assert Accepted(reply, clock.nowMillis);
    AccountJsonRoundTrip(a);
    assert AccountFromJson(Get(reply.json.fields, "result")) == Some(a);
    var r := Login(s, crypto, encode, decode, username, password, autoLogin, clock, reply);
    assert OffFastPath(s, decode, autoLogin);
    assert r.outcome.Ok? && r.outcome.value.Some?;
  }

  /** A server `error` fails the login: the exception propagates, the current
      account is untouched and no record is left in the store. */
  lemma LoginRemoteErrorPersistsNothing(s: Sdk, crypto: Crypto, encode: AccountInfo -> string, decode: string -> Option<AccountInfo>,
                                        username: string, password: string, autoLogin: bool, clock: Clock,
                                        fields: map<string, Json>)
    requires GetBuckyOsConfig(s.process).Some?
    requires GetAppId(s.process).value != "" && GetZoneHostName(s.process).value != ""
    requires !autoLogin || ACCOUNT_KEY !in s.store
    requires "error" in fields
    ensures var r := Login(s, crypto, encode, decode, username, password, autoLogin, clock, Body(JObj(fields)));
            && r.outcome == Err(RpcError)
            && r.sdk.process == s.process
            && GetLocalAccountInfo(r.sdk.store, decode) == Ok(None)
  {
  }

  /** `logout(clean_account_info)` as written. Its guard calls the module's
      own `get_account_info`, which calls itself without end, so once the
      SDK is configured with an application id every call raises
      `RecursionError` before anything is cleaned. */
  function LogoutAsWritten(s: Sdk, clean: bool, pastExpiry: string): (r: LogoutRun)
    ensures r.sdk == s
    ensures r.outcome.Err? <==> GetBuckyOsConfig(s.process).Some? && GetAppId(s.process).value != ""
    ensures r.outcome.Err? ==> r.outcome.failure == RecursionLimit
  {
    if s.process.config.None? then LogoutRun(s, Ok(()))
    else if GetAppId(s.process).value == "" then LogoutRun(s, Ok(()))
    else LogoutRun(s, Err(RecursionLimit))
  }

  /** Even right after a successful login, `logout(True)` as written leaves
      the stored record in place and raises. */
  lemma LogoutAsWrittenKeepsRecord(s: Sdk, crypto: Crypto, encode: AccountInfo -> string, decode: string -> Option<AccountInfo>,
                                   username: string, password: string, clock: Clock, a: AccountInfo, token: string)
    requires RoundTrips(encode, decode)
    requires GetBuckyOsConfig(s.process).Some?
    requires GetAppId(s.process).value != "" && GetZoneHostName(s.process).value != ""
    requires a.sessionToken == Some(token)
    ensures var reply := Body(JObj(map["result" := AccountToJson(a), "sys" := JArr([JInt(clock.nowMillis), JStr(token)])]));
            var loggedIn := Login(s, crypto, encode, decode, username, password, false, clock, reply).sdk;
            var r := LogoutAsWritten(loggedIn, true, clock.pastExpiry);
            && r.outcome == Err(RecursionLimit)
            && GetLocalAccountInfo(r.sdk.store, decode) == Ok(Some(a))
  {
  }

  /** `logout(clean_account_info)` with its guard reading the current account
      slot. Without an account nothing happens; with one, the stored session
      is cleaned when asked. The current account itself is never cleared. */
  function Logout(s: Sdk, clean: bool, pastExpiry: string): (r: LogoutRun)
    ensures r.outcome.Ok?
    ensures r.sdk.process == s.process
    ensures GetBuckyOsConfig(s.process).None? || GetAppId(s.process).value == "" ==> r == LogoutRun(s, Ok(()))
    ensures !clean ==> r.sdk.store == s.store
    ensures GetAccountInfo(s.process).None? ==> r.sdk.store == s.store
    ensures clean && GetBuckyOsConfig(s.process).Some? && GetAppId(s.process).value != "" && GetAccountInfo(s.process).Some? ==>
      && ACCOUNT_KEY !in r.sdk.store
      && COOKIE_KEY in r.sdk.store && r.sdk.store[COOKIE_KEY] == Cookie(GetAppId(s.process).value, "", pastExpiry)
      && SameOutside(r.sdk.store, s.store, {ACCOUNT_KEY, COOKIE_KEY})
  {
    if s.process.config.None? then LogoutRun(s, Ok(()))
    else if GetAppId(s.process).value == "" then LogoutRun(s, Ok(()))
    else if GetAccountInfo(s.process).None? then LogoutRun(s, Ok(()))
    else if clean then LogoutRun(s.(store := CleanLocalAccountInfo(s.store, GetAppId(s.process).value, pastExpiry)), Ok(()))
    else LogoutRun(s, Ok(()))
  }

  /** After a successful login, `logout(True)` leaves no stored record, while
      the current account stays set. */
  lemma LogoutAfterLoginClearsRecord(s: Sdk, crypto: Crypto, encode: AccountInfo -> string, decode: string -> Option<AccountInfo>,
                                     username: string, password: string, clock: Clock, a: AccountInfo, token: string)
    requires RoundTrips(encode, decode)
    requires GetBuckyOsConfig(s.process).Some?
    requires GetAppId(s.process).value != "" && GetZoneHostName(s.process).value != ""
    requires a.sessionToken == Some(token)
    ensures var reply := Body(JObj(map["result" := AccountToJson(a), "sys" := JArr([JInt(clock.nowMillis), JStr(token)])]));
            var loggedIn := Login(s, crypto, encode, decode, username, password, false, clock, reply).sdk;
            var r := Logout(loggedIn, true, clock.pastExpiry);
            && GetLocalAccountInfo(r.sdk.store, decode) == Ok(None)
            && GetAccountInfo(r.sdk.process) == Some(a)
  {
  }
}

=== FILE: json.dfy ===
/** Parsed JSON values, as `json.loads` hands them to Python code.

    Objects map string keys to values (a repeated key keeps its last value,
    as a Python `dict` does). Non-integral numbers are kept apart from
    integers because `isinstance(x, int)` separates them. */
module JsonValues {
  import opened Base

  datatype Json =
    | JNull
    | JBool(b: bool)
    | JInt(i: int)
    | JReal(r: real)
    | JStr(s: string)
    | JArr(items: seq<Json>)
    | JObj(fields: map<string, Json>)

  /** The integer Python sees when it asks `isinstance(v, int)` of a parsed
      value: integers themselves, and the booleans, because `bool` is a
      subclass of `int` with `True == 1` and `False == 0`. */
  function PyInt(v: Json): (r: Option<int>)
    ensures r.Some? <==> v.JInt? || v.JBool?
    ensures v.JInt? ==> r == Some(v.i)
    ensures v.JBool? ==> r == Some(if v.b then 1 else 0)
  {
    match v
    case JInt(i) => Some(i)
    case JBool(b) => Some(if b then 1 else 0)
    case _ => None
  }

  /** `d.get(key)`: the value under `key`, or `None` (JSON null) when absent. */
  function Get(fields: map<string, Json>, key: string): (r: Json)
    ensures key in fields ==> r == fields[key]
    ensures key !in fields ==> r == JNull
  {
    if key in fields then fields[key] else JNull
  }
}

=== FILE: krpc.dfy ===
/** The kRPC call envelope of `buckyos/krpc_client.py`.

    A channel (`kRPCClient`) holds a sequence number and an optional session
    token. A call reads the sequence number, bumps it before anything is
    sent, posts `{method, params, sys}` and then checks the parsed reply in a
    fixed order: the shape of `sys`, the echoed sequence number, a rotated
    token, the `error` field, and finally the `result`.

    The HTTP post and the JSON parse are replaced by a `Reply` value: the
    transport failed, the status was not OK, the body was not JSON, or the
    parsed body. */
module Krpc {
  import opened Base
  import opened JsonValues
  import opened Config

  datatype Channel = Channel(serverUrl: string, seqNo: int, sessionToken: Option<string>, initToken: Option<string>)

  /** One kRPC envelope `{method, params, sys}` and the URL it is posted to. */
  datatype Request = Request(url: string, name: string, params: Json, sys: seq<Json>)

  datatype Reply =
    | TransportFailed   // `requests.post` raised
    | NotOk             // `response.ok` was false
    | Unparseable       // `response.json()` raised
    | Body(json: Json)  // the parsed reply

  /** One call: the envelope that was sent, the channel afterwards and what
      the call returned or raised. */
  datatype Called = Called(request: Request, channel: Channel, outcome: Outcome<Json>)

  /** A call to make and the reply the server gives it. */
  datatype Invocation = Invocation(name: string, params: Json, reply: Reply)

  /** The service segment of every zone service URL. */
  const KAPI: string := "/kapi/"

  /** `kRPCClient(url, token, seq)`. `nowMillis` stands for
      `int(time.time() * 1000)`, used only when no sequence number is given. */
  function NewChannel(url: string, token: Option<string>, initialSeq: Option<int>, nowMillis: int): (ch: Channel)
    ensures ch.serverUrl == url
    ensures initialSeq.Some? ==> ch.seqNo == initialSeq.value
    ensures initialSeq.None? ==> ch.seqNo == nowMillis
    ensures ch.sessionToken == token && ch.initToken == token
  {
    Channel(url, if initialSeq.Some? then initialSeq.value else nowMillis, token, token)
  }

  /** `set_seq(n)`: only the sequence number changes. */
  function SetSeq(ch: Channel, n: int): (c: Channel)
    ensures c.seqNo == n
    ensures c.serverUrl == ch.serverUrl
    ensures c.sessionToken == ch.sessionToken && c.initToken == ch.initToken
  {
    ch.(seqNo := n)
  }

  /** Python truthiness of an optional string: present and non-empty. */
  predicate Truthy(token: Option<string>) {
    token.Some? && token.value != ""
  }

  /** The request's `sys`: the sequence number, followed by the token only
      when the token is truthy. */
  function RequestSys(current: int, token: Option<string>): (sys: seq<Json>)
    ensures |sys| == 2 <==> Truthy(token)
    ensures |sys| == 1 <==> !Truthy(token)
    ensures sys[0] == JInt(current)
    ensures |sys| == 2 ==> sys[1] == JStr(token.value)
  {
    if token.Some? && token.value != "" then [JInt(current), JStr(token.value)] else [JInt(current)]
  }

  /** The `sys` checks in source order. Returns the token to hold once they
      pass, or the failure they raise. */
  function CheckSys(fields: map<string, Json>, current: int, token: Option<string>): Outcome<Option<string>> {
    if "sys" !in fields then Ok(token)
    else
      match fields["sys"]
      case JArr(sys) =>
        if |sys| > 1 && PyInt(sys[0]).None? then Err(RpcError)
        else if |sys| > 1 && PyInt(sys[0]).value != current then Err(RpcError)
        else if |sys| > 2 then
          if sys[1].JStr? then Ok(Some(sys[1].s)) else Err(RpcError)
        else Ok(token)
      case _ => Err(RpcError)
  }

  /** Independent statement of when a reply's `sys` is acceptable for a
      request numbered `current`: with two or more entries the first is an
      integer equal to `current`, with three or more the second is a string. */
  predicate SysAccepted(sys: seq<Json>, current: int) {
    && (|sys| >= 2 ==> PyInt(sys[0]) == Some(current))
    && (|sys| >= 3 ==> sys[1].JStr?)
  }

  /** A reply the call accepts: a JSON object, whose `sys` (if any) is an
      acceptable array, and that has no `error` key. */
  predicate Accepted(reply: Reply, current: int) {
    && reply.Body? && reply.json.JObj?
    && ("sys" in reply.json.fields ==>
          reply.json.fields["sys"].JArr? && SysAccepted(reply.json.fields["sys"].items, current))
    && "error" !in reply.json.fields
  }

  /** A reply that replaces the held token: an object whose `sys` is an
      acceptable array of at least three entries. The `error` key plays no
      part. */
  predicate Rotates(reply: Reply, current: int) {
    && reply.Body? && reply.json.JObj?
    && "sys" in reply.json.fields && reply.json.fields["sys"].JArr?
    && |reply.json.fields["sys"].items| >= 3
    && SysAccepted(reply.json.fields["sys"].items, current)
  }

  /** The token a rotating reply installs: the second entry of its `sys`. */
  function RotatedToken(reply: Reply, current: int): string
    requires Rotates(reply, current)
  {
    reply.json.fields["sys"].items[1].s
  }

  /** `kRPCClient._call` (and `call`, which only delegates to it). */
  function Call(ch: Channel, name: string, params: Json, reply: Reply): (r: Called)
    ensures r.request.url == ch.serverUrl
    ensures r.request.name == name && r.request.params == params
    ensures r.request.sys == RequestSys(ch.seqNo, ch.sessionToken)
    ensures r.channel.seqNo == ch.seqNo + 1
    ensures r.channel.serverUrl == ch.serverUrl && r.channel.initToken == ch.initToken
    ensures r.outcome.Ok? <==> Accepted(reply, ch.seqNo)
    ensures r.outcome.Err? ==> r.outcome.failure == RpcError
    ensures r.outcome.Ok? ==> r.outcome.value == Get(reply.json.fields, "result")
    ensures Rotates(reply, ch.seqNo) ==> r.channel.sessionToken == Some(RotatedToken(reply, ch.seqNo))
    ensures !Rotates(reply, ch.seqNo) ==> r.channel.sessionToken == ch.sessionToken
  {
    var current := ch.seqNo;
    var request := Request(ch.serverUrl, name, params, RequestSys(current, ch.sessionToken));
    var bumped := ch.(seqNo := current + 1);
    match reply
    case Body(JObj(fields)) =>
      (match CheckSys(fields, current, bumped.sessionToken)
       case Err(f) => Called(request, bumped, Err(f))
       case Ok(token) =>
         var rotated := bumped.(sessionToken := token);
         if "error" in fields then Called(request, rotated, Err(RpcError))
         else Called(request, rotated, Ok(Get(fields, "result"))))
    case _ => Called(request, bumped, Err(RpcError))
  }

  /** A reply whose `sys` has two or more entries and whose first entry is
      not the request's number fails, and the token stays as it was: the
      sequence check comes before rotation. */
  lemma SeqMismatchKeepsToken(ch: Channel, name: string, params: Json, reply: Reply)
    requires reply.Body? && reply.json.JObj? && "sys" in reply.json.fields
    requires reply.json.fields["sys"].JArr? && |reply.json.fields["sys"].items| >= 2
    requires PyInt(reply.json.fields["sys"].items[0]) != Some(ch.seqNo)
    ensures Call(ch, name, params, reply).outcome.Err?
    ensures Call(ch, name, params, reply).channel.sessionToken == ch.sessionToken
  {
  }

  /** A `sys` of at most two entries never changes the token, whatever the
      rest of the reply says. */
  lemma ShortSysNeverRotates(ch: Channel, name: string, params: Json, reply: Reply)
    requires reply.Body? && reply.json.JObj? && "sys" in reply.json.fields
    requires reply.json.fields["sys"].JArr? && |reply.json.fields["sys"].items| <= 2
    ensures Call(ch, name, params, reply).channel.sessionToken == ch.sessionToken
  {
  }

  /** A reply carrying both a valid three-entry `sys` and an `error` fails,
      yet the token it carries is already installed: rotation precedes the
      `error` check. */
  lemma ErrorAfterRotation(ch: Channel, name: string, params: Json, fields: map<string, Json>, token: string)
    requires "error" in fields
    requires "sys" in fields && fields["sys"].JArr? && |fields["sys"].items| >= 3
    requires PyInt(fields["sys"].items[0]) == Some(ch.seqNo) && fields["sys"].items[1] == JStr(token)
    ensures Call(ch, name, params, Body(JObj(fields))).outcome == Err(RpcError)
    ensures Call(ch, name, params, Body(JObj(fields))).channel.sessionToken == Some(token)
  {
  }

  /** `set_seq(n)` fixes the number the next call sends, and the call moves
      the channel on to `n + 1`. */
  lemma SetSeqPinsNextCall(ch: Channel, n: int, name: string, params: Json, reply: Reply)
    ensures Call(SetSeq(ch, n), name, params, reply).request.sys[0] == JInt(n)
    ensures Call(SetSeq(ch, n), name, params, reply).channel.seqNo == n + 1
  {
  }

  /** A rotated, non-empty token is sent with the next call; an empty one is
      held but not sent. */
  lemma RotatedTokenSentNext(ch: Channel, m1: string, p1: Json, reply: Reply, m2: string, p2: Json, reply2: Reply)
    requires Rotates(reply, ch.seqNo)
    ensures var next := Call(Call(ch, m1, p1, reply).channel, m2, p2, reply2).request;
            if RotatedToken(reply, ch.seqNo) != "" then
              next.sys == [JInt(ch.seqNo + 1), JStr(RotatedToken(reply, ch.seqNo))]
            else
              next.sys == [JInt(ch.seqNo + 1)]
  {
  }

  /** Several calls on one channel, in order. Each call is sent with the
      number the previous one left behind, so the numbers sent are
      consecutive and strictly increasing whatever the replies were. */
  method CallSequence(ch: Channel, calls: seq<Invocation>) returns (last: Channel, requests: seq<Request>, outcomes: seq<Outcome<Json>>)
    ensures |requests| == |calls| && |outcomes| == |calls|
    ensures last.seqNo == ch.seqNo + |calls|
    ensures last.serverUrl == ch.serverUrl
    ensures forall i :: 0 <= i < |requests| ==> |requests[i].sys| >= 1 && requests[i].sys[0] == JInt(ch.seqNo + i)
    ensures forall i, j :: 0 <= i < j < |requests| ==> requests[i].sys[0].i < requests[j].sys[0].i
    ensures forall i :: 0 <= i < |requests| ==> requests[i].name == calls[i].name
  {
    last := ch;
    requests := [];
    outcomes := [];
    var k := 0;
    while k < |calls|
      invariant 0 <= k <= |calls|
      invariant |requests| == k && |outcomes| == k
      invariant last.seqNo == ch.seqNo + k
      invariant last.serverUrl == ch.serverUrl
      invariant forall i :: 0 <= i < k ==> |requests[i].sys| >= 1 && requests[i].sys[0] == JInt(ch.seqNo + i)
      invariant forall i :: 0 <= i < k ==> requests[i].name == calls[i].name
    {
      var r := Call(last, calls[k].name, calls[k].params, calls[k].reply);
      requests := requests + [r.request];
      outcomes := outcomes + [r.outcome];
      last := r.channel;
      k := k + 1;
    }
  }

  /** `get_zone_service_url`: `{defaultProtocol}{zoneHostName}/kapi/{service}`,
      or the "not initialized" exception. */
  function GetZoneServiceUrl(p: Process, service: string): (r: Outcome<string>)
    ensures r.Err? <==> GetBuckyOsConfig(p).None?
    ensures r.Err? ==> r.failure == NotInitialized
    ensures r.Ok? ==>
      var c := GetBuckyOsConfig(p).value;
      && |r.value| == |c.defaultProtocol| + |c.zoneHostName| + |KAPI| + |service|
      && r.value[..|c.defaultProtocol|] == c.defaultProtocol
      && r.value[|c.defaultProtocol|..|c.defaultProtocol| + |c.zoneHostName|] == c.zoneHostName
      && r.value[|r.value| - |service| - |KAPI|..|r.value| - |service|] == KAPI
      && r.value[|r.value| - |service|..] == service
  {
    match p.config
    case None => Err(NotInitialized)
    case Some(c) => Ok(c.defaultProtocol + c.zoneHostName + KAPI + service)
  }

  /** Under one configuration, the URL names the service: distinct services
      get distinct URLs. */
  lemma ServiceUrlDeterminesService(p: Process, s1: string, s2: string)
    requires GetBuckyOsConfig(p).Some?
    requires GetZoneServiceUrl(p, s1) == GetZoneServiceUrl(p, s2)
    ensures s1 == s2
  {
  }

  /** The token a new channel is seeded with: the current account's token,
      or none when no account is held. */
  function AccountToken(p: Process): Option<string> {
    if p.account.Some? then p.account.value.sessionToken else None
  }

  /** `get_service_rpc_client`: a channel to the service URL, seeded with the
      current account's token (none when no account is held), its number
      taken from the clock. */
  function GetServiceRpcClient(p: Process, service: string, nowMillis: int): (r: Outcome<Channel>)
    ensures r.Err? <==> GetBuckyOsConfig(p).None?
    ensures r.Err? ==> r.failure == NotInitialized
    ensures r.Ok? ==> r.value.serverUrl == GetZoneServiceUrl(p, service).value
    ensures r.Ok? ==> r.value.seqNo == nowMillis
    ensures r.Ok? && GetAccountInfo(p).None? ==> r.value.sessionToken.None?
    ensures r.Ok? && GetAccountInfo(p).Some? ==> r.value.sessionToken == GetAccountInfo(p).value.sessionToken
    ensures r.Ok? ==> r.value.initToken == r.value.sessionToken
  {
    if p.config.None? then Err(NotInitialized)
    else
      Ok(NewChannel(GetZoneServiceUrl(p, service).value, AccountToken(p), None, nowMillis))
  }

  /** The first call on a fresh service channel goes to that service's URL
      and carries the clock number and the current account's token. */
  lemma ServiceClientFirstCall(p: Process, service: string, nowMillis: int, name: string, params: Json, reply: Reply)
    requires GetBuckyOsConfig(p).Some?
    ensures var ch := GetServiceRpcClient(p, service, nowMillis).value;
            && ch.serverUrl == p.config.value.defaultProtocol + p.config.value.zoneHostName + KAPI + service
            && Call(ch, name, params, reply).request.sys == RequestSys(nowMillis, AccountToken(p))
  {
  }
}
